=== FILE: README.md ===
# Hazeltask execution core, modelled in Dafny

Hazeltask is a distributed task-execution fabric on top of Hazelcast. Work is
submitted on any member. It is recorded in a cluster-wide pending-work ledger,
dispatched to a member, and queued there in a grouped queue with one FIFO
sub-queue per group. A worker pool executes it. A periodic rebalance task
steals queued work from overloaded members for an underloaded one.

This project models the sequential decision logic of that core with immutable
datatypes and state-returning functions and methods:

- `tasks.dfy` (`Tasks`): the task record (`HazeltaskTask`), its
  constructors, its setters and `run`.
- `grouped_queue.dfy` (`GroupedQueue`): the grouped queue as
  `map<Group, seq<Task>>`, its contents as a multiset, and `add`, `size`,
  per-group sizes, oldest creation time and `drainTo`.
- `queue_executor.dfy` (`QueueExecutor`): the worker pool's run-state machine
  RUNNING < SHUTDOWN < STOP < TERMINATED. It covers `startup`, `shutdown`,
  `shutdownNow`, `tryTerminate` and `getTasksInProgress`, and the listener
  chains that swallow listener failures.
- `listeners.dfy` (`Listeners`): listeners, and the work-completion listener
  that deletes the ledger entry.
- `local_executor.dfy` (`LocalExecutor`): `LocalTaskExecutorService`, which
  covers the accept path, proportional stealing and the oldest-work query.
- `pending_work.dfy` (`PendingWork`): the ledger as `map<TaskId, Task>`,
  with `put`, `putIfAbsent` and `remove`.
- `distributed_executor.dfy` (`DistributedExecutor`): submission through the
  ledger, with put-if-absent or overwrite, and dispatch to the routed member.
- `rebalance.dfy` (`Rebalance`): one rebalance cycle. This covers integer
  averaging, the abort guards, the steal plan, re-enqueueing and the lock.
- `rounding.dfy` (`Rounding`): `Math.round` of a ratio, computed exactly;
  `options.dfy` (`Options`): `Option` for nullable references.

Inputs stand in for everything outside the core. Clock readings are `now`
parameters. The member router's choice is an `Option<Member>`. The id adapter
is a function `Runnable -> WorkId`. The size responses of a rebalance cycle
are a sequence. The donors' answer to a steal request is a function from the
plan to the returned tasks, or to none when the remote call throws. A task body
is described by what it does: it returns (a callable with a value) or it throws
an `Exception` or an `Error`.

Behaviour of the code that a reader might not expect, modelled as written:

- `tryTerminate` moves SHUTDOWN or STOP to TERMINATED once every worker has
  exited (QueueExecutor.java lines 242-249). Its own Javadoc (lines 223-227)
  asks for "SHUTDOWN and pool and queue empty" on the graceful path, but the
  code does not look at the queue, and neither does `QueueExecutor.TryTerminate`.
- `totalExceedingIdeal` adds up the full sizes of the members above the
  average, not their excess. With sizes 100, 100 and 10 it is 200, not 60.
  Each donor's share comes out at 30 all the same (`Rebalance.PlanExample`).
- The 30% guard aborts whenever `optimal * 0.30 <= local`. A member far below
  the average can still abort (`Rebalance.ThresholdAbortsBelowAverage`).
- `stealTasks(n)` rounds each group's share separately. It can hand over more
  than `n` tasks: three groups of one task each give one apiece when two are
  asked for (`LocalExecutor.StealCanExceedRequest`).

## Model

| member | source | states |
|---|---|---|
| Tasks.NewRunnableTask | src/main/java/com/hazeltask/executor/task/HazeltaskTask.java:29-36 | a task built from a runnable starts at submission count 1, is stamped with the clock reading, wraps that runnable, and has empty result and exception slots |
| Tasks.NewCallableTask | src/main/java/com/hazeltask/executor/task/HazeltaskTask.java:38-45 | the same for a callable: submission count 1, creation time = clock reading, callable body, nothing recorded yet |
| Tasks.SetSubmissionCount | src/main/java/com/hazeltask/executor/task/HazeltaskTask.java:47-53 | after the setter the getter returns the new count; identity, body, creation time and result slots are untouched |
| Tasks.UpdateCreatedTime | src/main/java/com/hazeltask/executor/task/HazeltaskTask.java:55-57 | only the creation time changes; id, group, topology, body and submission count are preserved |
| Tasks.Run | src/main/java/com/hazeltask/executor/task/HazeltaskTask.java:83-93 | a callable's returned value lands in the result slot. An `Exception` from either kind of body is stored and `run` returns normally. Only an `Error` escapes, and then the task is unchanged. Identity, creation time and count never change |
| Tasks.RunFollowsConstructor | src/main/java/com/hazeltask/executor/task/HazeltaskTask.java:29-93 | a fresh task built from a callable ends up holding what it returned; one built from a runnable never gets a result; both record an `Exception` and return normally |
| Tasks.Inc32 | src/main/java/com/succinctllc/hazelcast/work/executor/DistributedExecutorService.java:149 | Java `int` increment: one more below `Integer.MAX_VALUE`, wrapping to `Integer.MIN_VALUE` at it |
| Rounding.RoundHalfUpBracket | src/main/java/com/hazeltask/executor/local/LocalTaskExecutorService.java:207-208 | the exact rounding lies within one half of the ratio, halves going up, as `Math.round` does |
| Rounding.RoundHalfUpIsNearest | src/main/java/com/hazeltask/executor/WorkRebalanceTimerTask.java:149-150 | the rounded ratio is the only integer in that half-open bracket |
| Rounding.RoundHalfUpBounded | src/main/java/com/hazeltask/executor/WorkRebalanceTimerTask.java:149-150 | rounding a ratio no larger than a bound never exceeds the bound |
| Rounding.ShareWithin | src/main/java/com/hazeltask/executor/WorkRebalanceTimerTask.java:149-150 | the rounded proportional share `round(n * part / whole)` of a part no larger than the whole is at most `n` |
| PendingWork.Put | src/main/java/com/succinctllc/hazelcast/work/executor/DistributedExecutorService.java:150 | the entry for the id becomes the task, every other entry is kept, the previous entry is returned |
| PendingWork.PutIfAbsent | src/main/java/com/succinctllc/hazelcast/work/executor/DistributedExecutorService.java:152 | an existing entry is returned and the ledger is unchanged; otherwise exactly the new key is added |
| PendingWork.Remove | src/main/java/com/hazeltask/executor/local/LocalTaskExecutorService.java:139 | the id's entry is gone and every other entry is kept |
| GroupedQueue.Add | src/main/java/com/hazeltask/executor/local/LocalTaskExecutorService.java:191-192 | the task is appended to its group's sub-queue, created if absent; other groups are untouched; the contents grow by exactly that task |
| GroupedQueue.AppendedStep | src/main/java/com/hazeltask/executor/local/LocalTaskExecutorService.java:191-192 | adding tasks one at a time leaves every group's sub-queue as it was, followed by exactly that group's added tasks in the order they were added; a group exists afterwards exactly when it existed or received a task |
| GroupedQueue.GroupSizes | src/main/java/com/hazeltask/executor/local/LocalTaskExecutorService.java:174-180 | every group key of the queue, and no other, maps to its sub-queue's size |
| GroupedQueue.GroupSizesTotal | src/main/java/com/hazeltask/executor/local/LocalTaskExecutorService.java:170-180 | the per-group sizes add up to the number of tasks in the queue |
| GroupedQueue.Size | src/main/java/com/hazeltask/executor/local/LocalTaskExecutorService.java:170-172 | the queue size, summed group by group, is the number of resident tasks |
| GroupedQueue.OldestQueueTime | src/main/java/com/hazeltask/executor/local/LocalTaskExecutorService.java:162 | absent exactly when the queue is empty; otherwise the creation time of some resident task and no later than any of them |
| GroupedQueue.Drain | hazeltask/src/main/java/com/hazeltask/executor/local/QueueExecutor.java:199-221 | the drained list holds exactly the queue's tasks (as a multiset) and every sub-queue is left empty |
| Listeners.CompleteWork | src/main/java/com/hazeltask/executor/local/LocalTaskExecutorService.java:134-140 | after execution the task's ledger entry is removed whatever error is passed; other entries are kept |
| QueueExecutor.Startup | hazeltask/src/main/java/com/hazeltask/executor/local/QueueExecutor.java:81-95 | the worker list grows to max(current size, coreThreads) with fresh idle workers appended; existing workers and the run state are kept |
| QueueExecutor.IsShutdown | hazeltask/src/main/java/com/hazeltask/executor/local/QueueExecutor.java:274-276 | shut down exactly when the run state has moved past RUNNING, the lowest state, to SHUTDOWN, STOP or TERMINATED |
| QueueExecutor.TryTerminate | hazeltask/src/main/java/com/hazeltask/executor/local/QueueExecutor.java:234-257 | TERMINATED exactly when every worker has exited and the state is SHUTDOWN or STOP, whatever the queue holds; otherwise nothing changes |
| QueueExecutor.Shutdown | hazeltask/src/main/java/com/hazeltask/executor/local/QueueExecutor.java:100-141 | a no-op past RUNNING. From RUNNING it gives SHUTDOWN, or TERMINATED when all workers have exited. The state never goes back, the pool reports shut down, and only the state changes |
| QueueExecutor.InProgress | hazeltask/src/main/java/com/hazeltask/executor/local/QueueExecutor.java:264-272 | a task is in progress exactly when some worker holds it as its current task; the list is no longer than the worker list |
| QueueExecutor.InProgressCount | hazeltask/src/main/java/com/hazeltask/executor/local/QueueExecutor.java:264-272 | the in-progress list has exactly one entry per busy worker: its length is the number of worker positions holding a task |
| QueueExecutor.TasksInProgress | hazeltask/src/main/java/com/hazeltask/executor/local/QueueExecutor.java:264-272 | the loop collects exactly the workers' non-null current tasks, in worker order |
| QueueExecutor.ShutdownNow | hazeltask/src/main/java/com/hazeltask/executor/local/QueueExecutor.java:144-193 | from TERMINATED: empty list, nothing changes. Otherwise the state becomes STOP, or TERMINATED if all workers exited. The queue is left empty. The result is the former queue contents followed by every worker's current task |
| QueueExecutor.BeforeExecute | hazeltask/src/main/java/com/hazeltask/executor/local/QueueExecutor.java:286-294 | every listener registered on the pool is called once, in registration order, even after earlier ones throw |
| QueueExecutor.AfterExecute | hazeltask/src/main/java/com/hazeltask/executor/local/QueueExecutor.java:295-303 | every listener registered on the pool is called in order despite failures. The ledger entry is removed exactly when some work-completion listener completes its callback |
| LocalExecutor.Execute | src/main/java/com/hazeltask/executor/local/LocalTaskExecutorService.java:182-197 | accepted exactly when the pool is still RUNNING; a refused task leaves the queue as it was; an accepted one is added to its group |
| LocalExecutor.Taken | src/main/java/com/hazeltask/executor/local/LocalTaskExecutorService.java:201-210 | an empty group gives nothing. Any other group gives min(size, round(n·size/total)), which is never more than the group holds or than n |
| LocalExecutor.PollUpTo | src/main/java/com/hazeltask/executor/local/LocalTaskExecutorService.java:210-216 | polling up to k tasks takes the first min(k, size) from the front and leaves the rest |
| LocalExecutor.StealTasks | src/main/java/com/hazeltask/executor/local/LocalTaskExecutorService.java:199-228 | on a shut-down pool: nothing stolen, queue unchanged. Otherwise each group loses exactly its `Taken` share from the front (total measured on entry), and stolen plus remaining tasks equal the original contents as a multiset |
| LocalExecutor.OldestWorkCreatedTime | src/main/java/com/hazeltask/executor/local/LocalTaskExecutorService.java:151-168 | no later than any in-progress or queued task's creation time; equal to one of them when any exist; `Long.MAX_VALUE` when none do |
| LocalExecutor.StealSharesExample | src/main/java/com/hazeltask/executor/local/LocalTaskExecutorService.java:207-208 | 20 tasks requested from groups of 30 and 10 take 15 and 5 |
| LocalExecutor.StealFromGroup | src/main/java/com/hazeltask/executor/local/LocalTaskExecutorService.java:205-216 | one group's turn drops exactly its `Taken` share from the front of its sub-queue, and every task stays accounted for |
| LocalExecutor.StealCanExceedRequest | src/main/java/com/hazeltask/executor/local/LocalTaskExecutorService.java:204-216 | rounding per group can take more than requested: 2 requested from three one-task groups take 3 |
| DistributedExecutor.Wrap | src/main/java/com/succinctllc/hazelcast/work/executor/DistributedExecutorService.java:137-144 | an existing wrapper keeps its id, body and count with its creation time refreshed; a plain runnable is wrapped under the adapter's id and group |
| DistributedExecutor.Execute | src/main/java/com/succinctllc/hazelcast/work/executor/DistributedExecutorService.java:130-170 | the ledger always holds the key afterwards. A resubmission bumps the count by one (Java `int`), keeps the stored result and exception, and overwrites the entry. A first submission writes only if the key is absent. A dispatch of the wrapper goes to the routed member only when the entry was written and a member exists |
| DistributedExecutor.Submit | src/main/java/com/succinctllc/hazelcast/work/executor/DistributedExecutorService.java:125-127 | `execute(command)` is a first submission, `execute(command, false)` |
| DistributedExecutor.DuplicateSubmissionIsIgnored | src/main/java/com/succinctllc/hazelcast/work/executor/DistributedExecutorService.java:146-156 | a second first-submission under the same key leaves the ledger as it was and dispatches nothing; at most one dispatch overall |
| DistributedExecutor.LedgerHoldsWorkUntilCompletion | src/main/java/com/succinctllc/hazelcast/work/executor/DistributedExecutorService.java:146-161 | after any submission, dispatched or not, the ledger holds the work; the completion listener then removes it |
| Rebalance.LocalSize | src/main/java/com/hazeltask/executor/WorkRebalanceTimerTask.java:103-111 | absent exactly when no response is from the local member; otherwise the size in the local member's last response, since the loop overwrites earlier ones |
| Rebalance.Exceeding | src/main/java/com/hazeltask/executor/WorkRebalanceTimerTask.java:132-136 | a response is kept exactly when its size is strictly above the average |
| Rebalance.ExceedingCounts | src/main/java/com/hazeltask/executor/WorkRebalanceTimerTask.java:147-148 | every response above the average is kept as often as it occurs, and no other response |
| Rebalance.ExceedingKeepsOrder | src/main/java/com/hazeltask/executor/WorkRebalanceTimerTask.java:147-148 | the donors are the responses at exactly the positions above the average, in response order |
| Rebalance.Plan | src/main/java/com/hazeltask/executor/WorkRebalanceTimerTask.java:96-154 | no responses: abort. Local member missing: abort. Otherwise the average is the integer mean. A steal plan comes only when local < average and 10·local < 3·average, with needToTake = average − local > 0 and a positive exceeding sum. Every plan entry is a proportional share ≤ needToTake |
| Rebalance.StealFrom | src/main/java/com/hazeltask/executor/WorkRebalanceTimerTask.java:138-154 | the steal branch records the average, the local size, needToTake and the full-size exceeding sum, and plans proportionally |
| Rebalance.StealsFor | src/main/java/com/hazeltask/executor/WorkRebalanceTimerTask.java:147-154 | one entry per donor in response order, asking for round(needToTake·size/exceeding), never above needToTake |
| Rebalance.ExceedingNonEmpty | src/main/java/com/hazeltask/executor/WorkRebalanceTimerTask.java:113-136 | when the local member is below the integer average, the sum over members above it is positive, so the share division is defined |
| Rebalance.PlanSkipsLocalMember | src/main/java/com/hazeltask/executor/WorkRebalanceTimerTask.java:147-154 | with one response per member, a steal plan never names the local member |
| Rebalance.PlanExample | src/main/java/com/hazeltask/executor/WorkRebalanceTimerTask.java:113-154 | sizes 100, 100, 10 (local last): average 70, need 60, exceeding sum 200, 30 from each donor |
| Rebalance.ThresholdAbortsBelowAverage | src/main/java/com/hazeltask/executor/WorkRebalanceTimerTask.java:122-127 | sizes 100, 100, 40 (local last): the 30% guard aborts although the local member holds half the average |
| Rebalance.RebalanceCycle | src/main/java/com/hazeltask/executor/WorkRebalanceTimerTask.java:74-184 | the lock is taken once and released once on every path, including a failing steal call. A completed cycle returns false. On abort no steal is requested and the pool is untouched. On a plan exactly that plan is requested. If the call fails, nothing is added. Otherwise every returned task goes to the local accept path: when RUNNING, each task is appended to the tail of its own group's sub-queue, in the order returned, and the queue gains exactly those tasks; otherwise nothing changes |
| Rebalance.EnqueueStolen | src/main/java/com/hazeltask/executor/WorkRebalanceTimerTask.java:163-167 | every stolen task goes through the local accept path, the count equals the number of tasks, and a RUNNING pool's queue gains exactly those tasks, each appended to the tail of its own group's sub-queue in the order returned |

## Left out

- Threads, interrupts and locks of the worker pool: the worker loop, `runLock`, `interruptIfIdle`/`interruptNow` (including the interrupts `shutdown` sends after releasing its lock), the `termination` condition and `terminated()`. Workers are records of their current task and an exited flag.
- Security-manager checks in `shutdown`/`shutdownNow` and the run-state back-out when a `SecurityException` is thrown: platform artefact.
- Per-worker and pool-wide completed-task counters: bookkeeping only.
- The two-step shape of `drainQueue`: a bulk `drainTo` followed by a loop that removes and adds whatever is left (QueueExecutor.java:209-219). Together they run until the queue is empty and hand over every task they remove. `GroupedQueue.Drain` models that combined effect in one loop over the groups, and `drainTo` itself is not part of this model.
- The grouped queue's router, its priority ordering inside a sub-queue, and `poll`/`take`: its implementation is not part of this model. Polling takes the front of a sub-queue, and the order of groups is the unspecified iteration order of the map.
- `GroupedQueue.Add`: modelled as always succeeding, because the queue's `add` is not part of this model.
- Hazelcast itself: the distributed map, the cluster lock, size collection and steal requests across members, `DistributedTask` dispatch, and the cluster-wide `shutdown`/`shutdownNow` broadcast. The ledger is a map, the lock a log of events, and the remote answers are inputs.
- The round-robin member router: its choice is an input.
- DistributedExecutor.Wrap: `com.succinctllc.hazelcast.work.HazelcastWork` (built at DistributedExecutorService.java:143) is not part of this model. The model assumes it carries the same fields as `HazeltaskTask`, and that a freshly wrapped plain command starts at submission count 1 with its creation time set to the clock reading, as `HazeltaskTask`'s constructor does.
- `Rebalance.Plan`: sizes are unbounded naturals, so `long` overflow of the size total is not modelled.
- `Rebalance.Plan` and `LocalExecutor.Taken`: `Math.round` on doubles becomes exact rounding of the rational value, and the 0.30 threshold becomes `3 * optimal <= 10 * local`. Floating-point rounding error is not modelled.
- Metrics, timers, histograms, gauges and logging. With statistics disabled, `redistributionTimer` is null, and the rebalance cycle fails on it after taking the lock. The `finally` block still releases the lock first. This path is not modelled.
- The static registry of services by topology name, the "Not Implemented Yet" methods of the distributed executor, the stale-work flush timer, and `startup`/`isReady`.
- `LocalTaskExecutorService.startup`, `shutdown`, `shutdownNow` and `isShutdown`: they forward to the worker pool, whose operations are modelled.
- The pool's listener chain: the local service registers one `DelegatingExecutorListener` with the pool (LocalTaskExecutorService.java:103). It then adds `ResponseExecutorListener`, when futures are enabled, and `WorkCompletionExecutorListener` into it (lines 105-108). The model flattens that delegate into the pool's chain. This assumes the delegate calls every inner listener in order and isolates each one's failure; its code is not part of this model.
- `ResponseExecutorListener`: it is an `Observer` with no modelled effect, because it only answers futures.
- Rebalance.RebalanceCycle: a failing size collection is not modelled. `getLocalQueueSizes` gathers whatever answers arrive within its bound, and the modelled failure is the steal call's.
- LocalExecutor.StealTasks: the count is a `nat`. In the source, a negative count, or one whose `(int)` cast is negative, makes `new ArrayList<>((int)numberOfTasks)` throw `IllegalArgumentException` (line 202). This is not modelled.
- A callable returning null and one returning no value are the same `None`.

=== FILE: distributed_executor.dfy ===
/**
 * Submission through the distributed executor (`DistributedExecutorService.execute`):
 * the task is written to the pending-work ledger first and then dispatched to
 * one member chosen by the round-robin member router. The ledger, the router
 * and the remote dispatch are external collaborators: the ledger is a map
 * passed in and returned, the router's choice is an input, and dispatches are
 * returned as a log.
 */
module DistributedExecutor {
  import opened Options
  import opened Tasks
  import opened PendingWork
  import opened Listeners

  type Member = string

  /** The key the id adapter assigns to a plain command. */
  datatype WorkId = WorkId(id: TaskId, group: Group)

  /** What `execute` receives: a task wrapper (being resubmitted) or a plain runnable. */
  datatype Command = Wrapped(task: Task) | Plain(runnable: Runnable)

  /** One remote dispatch: the wrapper, sent to the local accept path of `member`. */
  datatype Dispatch = Dispatch(member: Member, work: Task)

  datatype Submission = Submission(ledger: Ledger, wrapper: Task, dispatches: seq<Dispatch>)

  /** The ledger key of a command: the wrapper's own id, or the id the adapter gives a plain runnable. */
  function KeyOf(command: Command, idOf: Runnable -> WorkId): TaskId {
    match command
    case Wrapped(t) => t.id
    case Plain(r) => idOf(r).id
  }

  /**
   * The wrapper a command is submitted as: an existing wrapper is reused with its
   * creation time refreshed; a plain runnable is wrapped under the adapter's key.
   */
  function Wrap(command: Command, topology: string, idOf: Runnable -> WorkId, now: Long): (w: Task)
    ensures w.id == KeyOf(command, idOf) && w.createdAt == now
    ensures command.Wrapped? ==>
              SameWork(w, command.task) && w.submissionCount == command.task.submissionCount
              && w.result == command.task.result && w.exception == command.task.exception
    ensures command.Plain? ==>
              w == NewRunnableTask(topology, idOf(command.runnable).id, idOf(command.runnable).group,
                                   command.runnable, now)
  {
    match command
    case Wrapped(t) => UpdateCreatedTime(t, now)
    case Plain(r) =>
      var key := idOf(r);
      NewRunnableTask(topology, key.id, key.group, r, now)
  }

  /**
   * `execute(command, isResubmitting)`. A resubmission bumps the submission count
   * and overwrites the ledger entry; a first submission only writes when the key
   * is absent and goes no further otherwise. A written entry is dispatched to
   * the member the router picks, or stays undispatched when there is none.
   */
  function Execute(command: Command, isResubmitting: bool, ledger: Ledger, topology: string,
                   idOf: Runnable -> WorkId, router: Option<Member>, now: Long): (s: Submission)
    ensures var key := KeyOf(command, idOf);
            var wrapped := Wrap(command, topology, idOf, now);
            && s.wrapper.id == key && s.wrapper.createdAt == now && SameWork(s.wrapper, wrapped)
            && key in s.ledger
            && (isResubmitting ==>
                  && s.wrapper.submissionCount == Inc32(wrapped.submissionCount)
                  && s.wrapper.result == wrapped.result
                  && s.wrapper.exception == wrapped.exception
                  && s.ledger == ledger[key := s.wrapper])
            && (!isResubmitting ==>
                  && s.wrapper == wrapped
                  && s.ledger == (if key in ledger then ledger else ledger[key := s.wrapper]))
            && s.dispatches ==
                 (if (isResubmitting || key !in ledger) && router.Some?
                  then [Dispatch(router.value, s.wrapper)]
                  else [])
  {
    var key := KeyOf(command, idOf);
    var wrapper := Wrap(command, topology, idOf, now);
    var (wrapper', ledger', executeTask) :=
      if isResubmitting then
        var w := SetSubmissionCount(wrapper, Inc32(wrapper.submissionCount));
        (w, Put(ledger, key, w).0, true)
      else
        var (l, previous) := PutIfAbsent(ledger, key, wrapper);
        (wrapper, l, previous.None?);
    if !executeTask then Submission(ledger', wrapper', [])
    else match router
      case None => Submission(ledger', wrapper', [])
      case Some(m) => Submission(ledger', wrapper', [Dispatch(m, wrapper')])
  }

  /** `execute(command)`: a first submission. */
  function Submit(command: Command, ledger: Ledger, topology: string,
                  idOf: Runnable -> WorkId, router: Option<Member>, now: Long): (s: Submission)
    ensures s == Execute(command, false, ledger, topology, idOf, router, now)
  {
    Execute(command, false, ledger, topology, idOf, router, now)
  }

  /**
   * Submitting the same work twice before it completes leaves one ledger entry,
   * the first one, and dispatches at most once in all.
   */
  lemma DuplicateSubmissionIsIgnored(c1: Command, c2: Command, ledger: Ledger, topology: string,
                                     idOf: Runnable -> WorkId, r1: Option<Member>, r2: Option<Member>,
                                     now1: Long, now2: Long)
    requires KeyOf(c1, idOf) == KeyOf(c2, idOf)
    ensures var s1 := Submit(c1, ledger, topology, idOf, r1, now1);
            var s2 := Submit(c2, s1.ledger, topology, idOf, r2, now2);
            && s2.ledger == s1.ledger
            && s2.dispatches == []
            && |s1.dispatches| + |s2.dispatches| <= 1
  {
  }

  /**
   * The ledger keeps the work from submission until the completion listener
   * runs: the entry is present after any submission, and gone once the
   * wrapper's completion is processed.
   */
  lemma LedgerHoldsWorkUntilCompletion(command: Command, isResubmitting: bool, ledger: Ledger,
                                       topology: string, idOf: Runnable -> WorkId,
                                       router: Option<Member>, now: Long, error: Option<Throwable>)
    ensures var s := Execute(command, isResubmitting, ledger, topology, idOf, router, now);
            && KeyOf(command, idOf) in s.ledger
            && KeyOf(command, idOf) !in CompleteWork(s.ledger, s.wrapper, error)
  {
  }
}

=== FILE: grouped_queue.dfy ===
/**
 * The grouped queue behind the local executor: one FIFO sub-queue per group.
 * A sub-queue that has been drained stays in the map, empty. The router that
 * picks which group to serve next is not part of this model; removal from a
 * sub-queue takes its front element.
 */
module GroupedQueue {
  import opened Options
  import opened Tasks

  type Queue = map<Group, seq<Task>>

  /** Every task resident in the queue, whatever its group. */
  ghost function Contents(q: Queue): multiset<Task>
    decreases q.Keys
  {
    if q.Keys == {} then multiset{}
    else
      var g :| g in q.Keys;
      multiset(q[g]) + Contents(q - {g})
  }

  /** Any one sub-queue can be split off the contents, whichever group the definition happened to pick. */
  lemma {:induction false} ContentsSplit(q: Queue, g: Group)
    requires g in q
    ensures Contents(q) == multiset(q[g]) + Contents(q - {g})
    decreases q.Keys
  {
    var h :| h in q.Keys && Contents(q) == multiset(q[h]) + Contents(q - {h});
    if h != g {
      var withoutH, withoutG := q - {h}, q - {g};
      assert g in withoutH && withoutH[g] == q[g];
      assert h in withoutG && withoutG[h] == q[h];
      ContentsSplit(withoutH, g);
      ContentsSplit(withoutG, h);
      assert withoutH - {g} == withoutG - {h};
    }
  }

  /** Replacing an existing sub-queue swaps its tasks in the contents. */
  lemma ContentsReplace(q: Queue, g: Group, s: seq<Task>)
    requires g in q
    ensures Contents(q[g := s]) == Contents(q) - multiset(q[g]) + multiset(s)
  {
    ContentsSplit(q, g);
    ContentsSplit(q[g := s], g);
    assert q[g := s] - {g} == q - {g};
  }

  /** Creating a new sub-queue adds its tasks to the contents. */
  lemma ContentsCreate(q: Queue, g: Group, s: seq<Task>)
    requires g !in q
    ensures Contents(q[g := s]) == Contents(q) + multiset(s)
  {
    ContentsSplit(q[g := s], g);
    assert q[g := s] - {g} == q;
  }

  /** The queue holds no task exactly when every sub-queue is empty. */
  lemma {:induction false} ContentsEmpty(q: Queue)
    ensures Contents(q) == multiset{} <==> forall g :: g in q ==> q[g] == []
    decreases q.Keys
  {
    if q.Keys != {} {
      var g :| g in q.Keys;
      ContentsSplit(q, g);
      ContentsEmpty(q - {g});
      if forall h :: h in q ==> q[h] == [] {
        assert forall h :: h in q - {g} ==> (q - {g})[h] == [];
      } else {
        var h :| h in q && q[h] != [];
        if h != g {
          ContentsSplit(q - {g}, h);
        }
        assert q[h][0] in multiset(q[h]);
      }
    }
  }

  /** The tasks of `ts` that belong to group `g`, in their order. */
  function OfGroup(ts: seq<Task>, g: Group): seq<Task> {
    if ts == [] then []
    else OfGroup(ts[..|ts| - 1], g) + (if ts[|ts| - 1].group == g then [ts[|ts| - 1]] else [])
  }

  /** One more task: it joins its own group's selection, at the end. */
  lemma OfGroupSnoc(ts: seq<Task>, t: Task, g: Group)
    ensures OfGroup(ts + [t], g) == OfGroup(ts, g) + (if t.group == g then [t] else [])
  {
    assert (ts + [t])[..|ts|] == ts;
  }

  /**
   * Group `g` of `q` is group `g` of `q0` extended at its tail by `added`; the
   * group is present exactly when it was present already or received a task.
   */
  ghost predicate GroupExtended(q0: Queue, q: Queue, g: Group, added: seq<Task>) {
    && (g in q <==> g in q0 || added != [])
    && (g in q ==> q[g] == (if g in q0 then q0[g] else []) + added)
  }

  /**
   * `q` is `q0` after adding the tasks of `ts` one by one: every group is
   * extended at its tail by exactly its own tasks of `ts`, in order.
   */
  ghost predicate Appended(q0: Queue, ts: seq<Task>, q: Queue) {
    forall g :: GroupExtended(q0, q, g, OfGroup(ts, g))
  }

  /** `add(t)` extends the task's own group by `t` and leaves every other group as it was. */
  lemma GroupExtendedStep(q0: Queue, q: Queue, t: Task, g: Group, added: seq<Task>)
    requires GroupExtended(q0, q, g, added)
    ensures GroupExtended(q0, Add(q, t), g, added + (if t.group == g then [t] else []))
  {
    if g == t.group {
      var before := if g in q0 then q0[g] else [];
      if g in q {
        assert Add(q, t)[g] == (before + added) + [t];
        assert Add(q, t)[g] == before + (added + [t]);
      } else {
        assert added == [] && g !in q0;
      }
    } else {
      assert added + [] == added;
    }
  }

  lemma AppendedStep(q0: Queue, ts: seq<Task>, q: Queue, t: Task)
    requires Appended(q0, ts, q)
    ensures Appended(q0, ts + [t], Add(q, t))
  {
    forall g
      ensures GroupExtended(q0, Add(q, t), g, OfGroup(ts + [t], g))
    {
      OfGroupSnoc(ts, t, g);
      GroupExtendedStep(q0, q, t, g, OfGroup(ts, g));
    }
  }

  /** `add(task)`: appends to the task's group sub-queue, creating the sub-queue when absent. */
  function Add(q: Queue, t: Task): (r: Queue)
    ensures Contents(r) == Contents(q) + multiset{t}
    ensures r.Keys == q.Keys + {t.group}
    ensures t.group in q ==> r[t.group] == q[t.group] + [t]
    ensures t.group !in q ==> r[t.group] == [t]
    ensures forall g :: g in q && g != t.group ==> r[g] == q[g]
  {
    var s := if t.group in q then q[t.group] + [t] else [t];
    AppendContents(q, t, s);
    q[t.group := s]
  }

  lemma AppendContents(q: Queue, t: Task, s: seq<Task>)
    requires s == if t.group in q then q[t.group] + [t] else [t]
    ensures Contents(q[t.group := s]) == Contents(q) + multiset{t}
  {
    if t.group in q {
      ContentsReplace(q, t.group, s);
      SubQueueBounded(q, t.group);
    } else {
      ContentsCreate(q, t.group, s);
    }
  }

  /** Per-group sizes, one entry per group key. */
  function GroupSizes(q: Queue): (sizes: map<Group, nat>)
    ensures sizes.Keys == q.Keys
    ensures forall g :: g in q ==> sizes[g] == |q[g]|
  {
    map g | g in q :: |q[g]|
  }

  /** The sum of the values of a size map. */
  ghost function Total(sizes: map<Group, nat>): nat
    decreases sizes.Keys
  {
    if sizes.Keys == {} then 0
    else
      var g :| g in sizes.Keys;
      sizes[g] + Total(sizes - {g})
  }

  lemma {:induction false} TotalSplit(sizes: map<Group, nat>, g: Group)
    requires g in sizes
    ensures Total(sizes) == sizes[g] + Total(sizes - {g})
    decreases sizes.Keys
  {
    var h :| h in sizes.Keys && Total(sizes) == sizes[h] + Total(sizes - {h});
    if h != g {
      TotalSplit(sizes - {h}, g);
      TotalSplit(sizes - {g}, h);
      assert (sizes - {h}) - {g} == (sizes - {g}) - {h};
    }
  }

  /** The per-group sizes add up to the number of tasks in the queue. */
  lemma {:induction false} GroupSizesTotal(q: Queue)
    ensures Total(GroupSizes(q)) == |Contents(q)|
    decreases q.Keys
  {
    if q.Keys != {} {
      var g :| g in q.Keys;
      ContentsSplit(q, g);
      TotalSplit(GroupSizes(q), g);
      assert GroupSizes(q) - {g} == GroupSizes(q - {g});
      GroupSizesTotal(q - {g});
    }
  }

  /** A sub-queue never holds more tasks than the whole queue. */
  lemma SubQueueBounded(q: Queue, g: Group)
    requires g in q
    ensures multiset(q[g]) <= Contents(q)
    ensures |q[g]| <= |Contents(q)|
  {
    ContentsSplit(q, g);
  }

  /** `size()`: the number of tasks resident in the queue, summed group by group. */
  method Size(q: Queue) returns (n: nat)
    ensures n == |Contents(q)|
  {
    n := 0;
    var rest := q;
    while rest.Keys != {}
      invariant n + |Contents(rest)| == |Contents(q)|
      decreases rest.Keys
    {
      var g :| g in rest.Keys;
      ContentsSplit(rest, g);
      n := n + |rest[g]|;
      rest := rest - {g};
    }
  }

  /** `o` is the smallest creation time among the tasks of `m`, absent exactly when `m` is empty. */
  ghost predicate IsOldest(m: multiset<Task>, o: Option<Long>) {
    && (o.None? <==> m == multiset{})
    && (o.Some? ==> (exists t :: t in m && t.createdAt == o.value)
                    && forall t :: t in m ==> o.value <= t.createdAt)
  }

  /** `getOldestQueueTime()`: the minimum creation time over the resident tasks, if any. */
  method OldestQueueTime(q: Queue) returns (o: Option<Long>)
    ensures IsOldest(Contents(q), o)
  {
    o := None;
    var rest := q;
    ghost var seen: multiset<Task> := multiset{};
    while rest.Keys != {}
      invariant seen + Contents(rest) == Contents(q)
      invariant IsOldest(seen, o)
      decreases rest.Keys
    {
      var g :| g in rest.Keys;
      o := OldestAcross(seen, o, rest[g]);
      ContentsSplit(rest, g);
      seen := seen + multiset(rest[g]);
      rest := rest - {g};
    }
  }

  /** Extends the oldest time `o` of `seen` over the tasks of `s`, one task at a time. */
  method OldestAcross(ghost seen: multiset<Task>, o: Option<Long>, s: seq<Task>) returns (r: Option<Long>)
    requires IsOldest(seen, o)
    ensures IsOldest(seen + multiset(s), r)
    decreases |s|
  {
    if s == [] {
      assert seen + multiset(s) == seen;
      return o;
    }
    var t := s[0];
    OldestStep(seen, o, t);
    var o' := if o.None? || t.createdAt < o.value then Some(t.createdAt) else o;
    r := OldestAcross(seen + multiset{t}, o', s[1..]);
    assert s == [t] + s[1..];
    assert seen + multiset(s) == seen + multiset{t} + multiset(s[1..]);
  }

  /** Taking one more task into account: the oldest time becomes the smaller of the two. */
  lemma OldestStep(m: multiset<Task>, o: Option<Long>, t: Task)
    requires IsOldest(m, o)
    ensures IsOldest(m + multiset{t}, if o.None? || t.createdAt < o.value then Some(t.createdAt) else o)
  {
    var m' := m + multiset{t};
    assert t in m';
    if o.Some? {
      var w :| w in m && w.createdAt == o.value;
      assert w in m';
    }
  }

  /** `drainTo`: hands over every resident task and leaves each sub-queue empty. */
  method Drain(q: Queue) returns (tasks: seq<Task>, r: Queue)
    ensures multiset(tasks) == Contents(q)
    ensures r.Keys == q.Keys
    ensures forall g :: g in r ==> r[g] == []
    ensures Contents(r) == multiset{}
  {
    tasks := [];
    r := q;
    var rest := q.Keys;
    while rest != {}
      invariant rest <= q.Keys && r.Keys == q.Keys
      invariant forall g :: g in rest ==> r[g] == q[g]
      invariant forall g :: g in q && g !in rest ==> r[g] == []
      invariant multiset(tasks) + Contents(r) == Contents(q)
      decreases rest
    {
      var g :| g in rest;
      DrainStep(q, r, g, tasks);
      tasks := tasks + r[g];
      r := r[g := []];
      rest := rest - {g};
    }
    ContentsEmpty(r);
  }

  /** Moving one whole sub-queue into the drained list keeps every task accounted for. */
  lemma DrainStep(q: Queue, r: Queue, g: Group, tasks: seq<Task>)
    requires g in r && multiset(tasks) + Contents(r) == Contents(q)
    ensures multiset(tasks + r[g]) + Contents(r[g := []]) == Contents(q)
  {
    ContentsReplace(r, g, []);
    SubQueueBounded(r, g);
  }
}

=== FILE: listeners.dfy ===
/**
 * Executor listeners: the callbacks run before and after every task. The only
 * listener whose effect is modelled is the work-completion listener of the
 * local executor service, which deletes the task's pending-ledger entry.
 */
module Listeners {
  import opened Options
  import opened Tasks
  import opened PendingWork

  /**
   * The pool's listeners as one flat chain: the local service registers a
   * single delegating listener with the pool and puts its own listeners inside
   * it (the response listener when futures are enabled, then work completion).
   */
  datatype ListenerKind =
    | WorkCompletion  // `WorkCompletionExecutorListener`
    | Observer        // any other listener, such as `ResponseExecutorListener`; it does not touch the ledger

  /** A registered listener, with whether its `beforeExecute` and `afterExecute` throw. */
  datatype Listener = Listener(kind: ListenerKind, beforeThrows: bool, afterThrows: bool)

  /**
   * `WorkCompletionExecutorListener.afterExecute`: the task has finished, so its
   * ledger entry goes, whether or not an error was passed in.
   */
  function CompleteWork(ledger: Ledger, task: Task, error: Option<Throwable>): (r: Ledger)
    ensures task.id !in r
    ensures r.Keys == ledger.Keys - {task.id}
    ensures forall k :: k in r ==> r[k] == ledger[k]
  {
    Remove(ledger, task.id)
  }

  /** The effect of one `afterExecute` callback on the ledger; a callback that throws has none. */
  function AfterEffect(l: Listener, ledger: Ledger, task: Task, error: Option<Throwable>): Ledger {
    if l.afterThrows then ledger
    else match l.kind
      case WorkCompletion => CompleteWork(ledger, task, error)
      case Observer => ledger
  }

  /** Some work-completion listener in the chain completes its callback. */
  predicate CompletionRuns(ls: seq<Listener>) {
    exists i :: 0 <= i < |ls| && ls[i].kind == WorkCompletion && !ls[i].afterThrows
  }
}

=== FILE: local_executor.dfy ===
/**
 * The local executor service (`LocalTaskExecutorService`): the accept path into
 * the grouped queue, proportional stealing out of it, and the queries used by
 * lost-work recovery and monitoring. Its `startup`, `shutdown`, `shutdownNow`
 * and `isShutdown` forward to the worker pool, and `getQueueSize` and
 * `getGroupSizes` to the grouped queue.
 */
module LocalExecutor {
  import opened Tasks
  import opened Rounding
  import opened GroupedQueue
  import opened QueueExecutor

  /** `execute(task)`: refused once the pool has left RUNNING; otherwise the task joins its group's sub-queue. */
  function Execute(p: Pool, t: Task): (r: (bool, Pool))
    ensures r.0 <==> !IsShutdown(p)
    ensures r.1 == p.(queue := r.1.queue)
    ensures !r.0 ==> r.1.queue == p.queue
    ensures r.0 ==> r.1.queue == Add(p.queue, t)
    ensures r.0 ==> Contents(r.1.queue) == Contents(p.queue) + multiset{t}
  {
    if IsShutdown(p) then (false, p)
    else (true, p.(queue := Add(p.queue, t)))
  }

  function Min(a: nat, b: nat): nat {
    if a <= b then a else b
  }

  /**
   * The number of tasks `stealTasks(n)` removes from a sub-queue of `size`
   * tasks when the whole queue held `total`: the rounded share `n * size / total`,
   * capped by what the sub-queue holds; nothing from an empty sub-queue.
   */
  function Taken(n: nat, size: nat, total: nat): (k: nat)
    ensures k <= size
    ensures size <= total ==> k <= n
    ensures size > 0 && total > 0 ==> k == Min(size, Share(n, size, total))
    ensures size == 0 ==> k == 0
  {
    if size == 0 || total == 0 then 0
    else ShareWithin(n, size, total); Min(size, Share(n, size, total))
  }

  /**
   * `stealTasks(n)`: refused (empty result, queue untouched) once the pool has
   * left RUNNING. Otherwise every non-empty sub-queue gives up its proportional
   * share from the front; the stolen tasks and what stays behind together are
   * exactly the tasks the queue held.
   */
  method StealTasks(p: Pool, n: nat) returns (stolen: seq<Task>, r: Pool)
    ensures IsShutdown(p) ==> stolen == [] && r == p
    ensures !IsShutdown(p) ==>
              && r == p.(queue := r.queue)
              && r.queue.Keys == p.queue.Keys
              && (forall g :: g in p.queue ==>
                    r.queue[g] == p.queue[g][Taken(n, |p.queue[g]|, |Contents(p.queue)|)..])
              && multiset(stolen) + Contents(r.queue) == Contents(p.queue)
  {
    if IsShutdown(p) {
      return [], p;
    }
    var q := p.queue;
    var total := Size(q);
    var cur := q;
    var rest := q.Keys;
    stolen := [];
    while rest != {}
      invariant rest <= q.Keys && cur.Keys == q.Keys
      invariant forall g :: g in rest ==> cur[g] == q[g]
      invariant forall g :: g in q && g !in rest ==> cur[g] == q[g][Taken(n, |q[g]|, total)..]
      invariant multiset(stolen) + Contents(cur) == Contents(q)
      decreases rest
    {
      var g :| g in rest;
      stolen, cur := StealFromGroup(q, cur, g, n, total, stolen);
      rest := rest - {g};
    }
    r := p.(queue := cur);
  }

  /** One group's turn in `stealTasks`: its share leaves from the front of its sub-queue. */
  method StealFromGroup(q: Queue, cur: Queue, g: Group, n: nat, total: nat, stolen: seq<Task>)
    returns (stolen': seq<Task>, cur': Queue)
    requires g in q && g in cur && cur[g] == q[g] && total == |Contents(q)|
    requires multiset(stolen) + Contents(cur) == Contents(q)
    ensures cur' == cur[g := q[g][Taken(n, |q[g]|, total)..]]
    ensures multiset(stolen') + Contents(cur') == Contents(q)
  {
    var size := |cur[g]|;
    if size == 0 {
      stolen' := stolen;
      cur' := cur;
      StealStep(q, cur, g, stolen, [], cur[g]);
      assert stolen + [] == stolen;
    } else {
      SubQueueBounded(q, g);
      var taken, left := PollUpTo(cur[g], Share(n, size, total));
      StealStep(q, cur, g, stolen, taken, left);
      stolen' := stolen + taken;
      cur' := cur[g := left];
    }
  }

  /** Polls up to `k` tasks off the front of a sub-queue, stopping early when it runs dry. */
  method PollUpTo(sub: seq<Task>, k: nat) returns (taken: seq<Task>, left: seq<Task>)
    ensures taken == sub[..Min(|sub|, k)]
    ensures left == sub[Min(|sub|, k)..]
  {
    taken := [];
    left := sub;
    var i := 0;
    while i < k
      invariant 0 <= i <= |sub| && i <= k
      invariant left == sub[i..]
      invariant taken == sub[..i]
      decreases k - i
    {
      if left == [] {
        break;
      }
      taken := taken + [left[0]];
      left := left[1..];
      assert sub[..i + 1] == sub[..i] + [sub[i]];
      i := i + 1;
    }
  }

  /** Moving the front of one sub-queue into the stolen list keeps every task accounted for. */
  lemma StealStep(q: Queue, cur: Queue, g: Group, stolen: seq<Task>, taken: seq<Task>, left: seq<Task>)
    requires g in cur
    requires cur[g] == taken + left
    requires multiset(stolen) + Contents(cur) == Contents(q)
    ensures multiset(stolen + taken) + Contents(cur[g := left]) == Contents(q)
  {
    ContentsReplace(cur, g, left);
    SubQueueBounded(cur, g);
  }

  /**
   * `getOldestWorkCreatedTime()`: the smallest creation time over the tasks the
   * workers are running and the tasks waiting in the queue, or `Long.MAX_VALUE`
   * when there are none.
   */
  method OldestWorkCreatedTime(p: Pool) returns (oldest: Long)
    ensures forall t :: t in InProgress(p.workers) ==> oldest <= t.createdAt
    ensures forall t :: t in Contents(p.queue) ==> oldest <= t.createdAt
    ensures (exists t :: t in InProgress(p.workers) || t in Contents(p.queue)) ==>
              exists t :: (t in InProgress(p.workers) || t in Contents(p.queue)) && t.createdAt == oldest
    ensures InProgress(p.workers) == [] && Contents(p.queue) == multiset{} ==> oldest == LONG_MAX
  {
    oldest := LONG_MAX;
    var running := TasksInProgress(p.workers);
    var i := 0;
    while i < |running|
      invariant 0 <= i <= |running|
      invariant forall j :: 0 <= j < i ==> oldest <= running[j].createdAt
      invariant oldest == LONG_MAX || exists j :: 0 <= j < i && running[j].createdAt == oldest
    {
      if running[i].createdAt < oldest {
        oldest := running[i].createdAt;
      }
      i := i + 1;
    }
    var queueOldest := OldestQueueTime(p.queue);
    if queueOldest.Some? && queueOldest.value < oldest {
      oldest := queueOldest.value;
    }
    if oldest == LONG_MAX {
      forall t | t in InProgress(p.workers) || t in Contents(p.queue)
        ensures t.createdAt == oldest
      {
      }
    }
  }

  /** Proportional draining: 20 tasks requested from groups of 30 and 10 take 15 and 5. */
  lemma StealSharesExample()
    ensures Taken(20, 30, 40) == 15 && Taken(20, 10, 40) == 5
  {
  }

  /**
   * Rounding each group's share separately can take more than was asked for:
   * 2 tasks requested from three groups of one task each take one from every
   * group, 3 in all.
   */
  lemma StealCanExceedRequest()
    ensures Taken(2, 1, 3) + Taken(2, 1, 3) + Taken(2, 1, 3) == 3 > 2
  {
    assert Share(2, 1, 3) == 1;
  }
}

=== FILE: options.dfy ===
/** The optional value used wherever the Java code uses a nullable reference. */
module Options {

  /** `None` stands for Java's `null`. */
  datatype Option<+T> = None | Some(value: T)
}

=== FILE: pending_work.dfy ===
/**
 * The pending-work ledger: the cluster-wide map from task id to task that acts
 * as a write-ahead log. Only the map operations the core uses are modelled;
 * the distributed map itself is an external collaborator.
 */
module PendingWork {
  import opened Options
  import opened Tasks

  type Ledger = map<TaskId, Task>

  /** `put`: unconditional overwrite; returns the previous entry. */
  function Put(l: Ledger, id: TaskId, t: Task): (r: (Ledger, Option<Task>))
    ensures id in r.0 && r.0[id] == t
    ensures forall k :: k != id ==> (k in r.0 <==> k in l) && (k in l ==> r.0[k] == l[k])
    ensures r.1 == if id in l then Some(l[id]) else None
  {
    (l[id := t], if id in l then Some(l[id]) else None)
  }

  /** `putIfAbsent`: writes only when the id has no entry; returns the entry that was there, if any. */
  function PutIfAbsent(l: Ledger, id: TaskId, t: Task): (r: (Ledger, Option<Task>))
    ensures id in l ==> r.0 == l && r.1 == Some(l[id])
    ensures id !in l ==> r.1.None? && r.0.Keys == l.Keys + {id} && r.0[id] == t
    ensures forall k :: k in l ==> k in r.0 && r.0[k] == l[k]
  {
    if id in l then (l, Some(l[id])) else (l[id := t], None)
  }

  /** `remove`: drops the entry for `id`, if there is one, and keeps every other entry. */
  function Remove(l: Ledger, id: TaskId): (r: Ledger)
    ensures id !in r
    ensures r.Keys == l.Keys - {id}
    ensures forall k :: k in r ==> r[k] == l[k]
  {
    l - {id}
  }
}

=== FILE: queue_executor.dfy ===
/**
 * The worker pool (`QueueExecutor`): a run state that only moves forward,
 * RUNNING < SHUTDOWN < STOP < TERMINATED, a set of workers each with the task
 * it is running, the grouped queue the workers take from, and the listener
 * chains run around each task. Threads, interrupts and locks are not modelled:
 * a worker is a record of its current task and whether it has exited.
 */
module QueueExecutor {
  import opened Options
  import opened Tasks
  import opened PendingWork
  import opened GroupedQueue
  import opened Listeners

  /** `QueueExecutor`'s RUNNING, SHUTDOWN, STOP and TERMINATED, in that order. */
  datatype RunState = Running | ShuttingDown | Stopping | Terminated

  /** `QueueExecutor`'s integer encoding of the run state, RUNNING = 0 up to TERMINATED = 3. */
  function Rank(s: RunState): nat {
    match s
    case Running => 0
    case ShuttingDown => 1
    case Stopping => 2
    case Terminated => 3
  }

  datatype Worker = Worker(currentTask: Option<Task>, terminated: bool)

  /** A worker as `startup` creates it: idle and alive. */
  const NewWorker := Worker(None, false)

  datatype Pool = Pool(
    runState: RunState,
    coreThreads: int,
    workers: seq<Worker>,
    queue: Queue,
    listeners: seq<Listener>)

  /** `isShutdown()`: the pool has left RUNNING, the lowest run state, for one of the three later ones. */
  function IsShutdown(p: Pool): (b: bool)
    ensures b <==> Rank(p.runState) > Rank(Running)
  {
    p.runState != Running
  }

  predicate AllTerminated(ws: seq<Worker>) {
    forall i :: 0 <= i < |ws| ==> ws[i].terminated
  }

  /** The pool changes nothing but its run state. */
  predicate SameExceptState(p: Pool, r: Pool) {
    r == p.(runState := r.runState)
  }

  /** `startup()`: tops the worker set up to `coreThreads` fresh workers, keeping the existing ones. */
  method Startup(p: Pool) returns (r: Pool)
    ensures |r.workers| == if p.coreThreads > |p.workers| then p.coreThreads else |p.workers|
    ensures r.workers[..|p.workers|] == p.workers
    ensures forall i :: |p.workers| <= i < |r.workers| ==> r.workers[i] == NewWorker
    ensures r == p.(workers := r.workers)
  {
    var ws := p.workers;
    var i := |ws|;
    while i < p.coreThreads
      invariant i == |ws| && |p.workers| <= |ws|
      invariant |ws| == |p.workers| || |ws| <= p.coreThreads
      invariant ws[..|p.workers|] == p.workers
      invariant forall j :: |p.workers| <= j < |ws| ==> ws[j] == NewWorker
      decreases p.coreThreads - i
    {
      ws := ws + [NewWorker];
      i := i + 1;
    }
    r := p.(workers := ws);
  }

  /**
   * `tryTerminate()`: TERMINATED exactly when every worker has exited and the
   * pool is in SHUTDOWN or STOP. The queue is not consulted.
   */
  method TryTerminate(p: Pool) returns (r: Pool)
    ensures AllTerminated(p.workers) && (p.runState == ShuttingDown || p.runState == Stopping)
            ==> r == p.(runState := Terminated)
    ensures !(AllTerminated(p.workers) && (p.runState == ShuttingDown || p.runState == Stopping)) ==> r == p
  {
    var allTerminated := true;
    var i := 0;
    while i < |p.workers|
      invariant 0 <= i <= |p.workers|
      invariant allTerminated <==> AllTerminated(p.workers[..i])
    {
      assert p.workers[..i + 1] == p.workers[..i] + [p.workers[i]];
      allTerminated := allTerminated && p.workers[i].terminated;
      i := i + 1;
    }
    assert p.workers[..|p.workers|] == p.workers;
    if allTerminated && (p.runState == Stopping || p.runState == ShuttingDown) {
      r := p.(runState := Terminated);
    } else {
      r := p;
    }
  }

  /**
   * `shutdown()`: a no-op once the pool has left RUNNING; from RUNNING it moves
   * to SHUTDOWN and then tries to terminate.
   */
  method Shutdown(p: Pool) returns (r: Pool)
    ensures Rank(r.runState) >= Rank(p.runState)
    ensures IsShutdown(r)
    ensures SameExceptState(p, r)
    ensures p.runState != Running ==> r == p
    ensures p.runState == Running ==>
              r.runState == if AllTerminated(p.workers) then Terminated else ShuttingDown
  {
    if Rank(p.runState) > Rank(Running) {
      return p;
    }
    r := p.(runState := ShuttingDown);
    r := TryTerminate(r);
  }

  /** The current tasks of the busy workers, in worker order. */
  ghost function InProgress(ws: seq<Worker>): (r: seq<Task>)
    ensures |r| <= |ws|
    ensures forall t :: t in r <==> exists i :: 0 <= i < |ws| && ws[i].currentTask == Some(t)
  {
    if ws == [] then []
    else
      var last := ws[|ws| - 1];
      assert forall i :: 0 <= i < |ws| - 1 ==> ws[..|ws| - 1][i] == ws[i];
      InProgress(ws[..|ws| - 1]) + (if last.currentTask.Some? then [last.currentTask.value] else [])
  }

  /** The positions of the workers that are running a task. */
  ghost function BusyWorkers(ws: seq<Worker>): set<nat> {
    set i: nat | i < |ws| && ws[i].currentTask.Some?
  }

  /** Appending a worker adds its position to the busy set exactly when it holds a task. */
  lemma BusyWorkersSnoc(ws: seq<Worker>)
    requires ws != []
    ensures var n := |ws| - 1;
            && n !in BusyWorkers(ws[..n])
            && BusyWorkers(ws) == BusyWorkers(ws[..n]) + (if ws[n].currentTask.Some? then {n} else {})
  {
    var n := |ws| - 1;
    var prefix := ws[..n];
    forall i | i in BusyWorkers(ws) && i < n
      ensures i in BusyWorkers(prefix)
    {
      assert prefix[i] == ws[i];
    }
    forall i | i in BusyWorkers(prefix)
      ensures i in BusyWorkers(ws)
    {
      assert prefix[i] == ws[i];
    }
  }

  /** One entry per busy worker: the list is exactly as long as there are busy workers. */
  lemma {:induction false} InProgressCount(ws: seq<Worker>)
    ensures |InProgress(ws)| == |BusyWorkers(ws)|
  {
    if ws != [] {
      InProgressCount(ws[..|ws| - 1]);
      BusyWorkersSnoc(ws);
    }
  }

  /** `getTasksInProgress()`: the non-null current task of every worker. */
  method TasksInProgress(ws: seq<Worker>) returns (tasks: seq<Task>)
    ensures tasks == InProgress(ws)
  {
    tasks := [];
    var i := 0;
    while i < |ws|
      invariant 0 <= i <= |ws|
      invariant tasks == InProgress(ws[..i])
    {
      assert ws[..i + 1][..i] == ws[..i];
      if ws[i].currentTask.Some? {
        tasks := tasks + [ws[i].currentTask.value];
      }
      i := i + 1;
    }
    assert ws[..|ws|] == ws;
  }

  /**
   * `shutdownNow()`: from TERMINATED it returns nothing and changes nothing.
   * Otherwise it moves to STOP, empties the queue, returns the drained tasks
   * followed by every worker's current task, and tries to terminate.
   */
  method ShutdownNow(p: Pool) returns (tasks: seq<Task>, r: Pool)
    ensures Rank(r.runState) >= Rank(p.runState)
    ensures IsShutdown(r)
    ensures p.runState == Terminated ==> tasks == [] && r == p
    ensures p.runState != Terminated ==>
              && r.runState == (if AllTerminated(p.workers) then Terminated else Stopping)
              && r == p.(runState := r.runState, queue := r.queue)
              && r.queue.Keys == p.queue.Keys
              && Contents(r.queue) == multiset{}
              && |InProgress(p.workers)| <= |tasks|
              && multiset(tasks[..|tasks| - |InProgress(p.workers)|]) == Contents(p.queue)
              && tasks[|tasks| - |InProgress(p.workers)|..] == InProgress(p.workers)
  {
    if Rank(p.runState) > Rank(Stopping) {
      return [], p;
    }
    var state := p.runState;
    if Rank(state) < Rank(Stopping) {
      state := Stopping;
    }
    var drained, emptied := Drain(p.queue);
    var current := TasksInProgress(p.workers);
    tasks := drained + current;
    assert tasks[..|drained|] == drained;
    r := TryTerminate(p.(runState := state, queue := emptied));
  }

  /** A listener callback as the chain saw it: its position, and whether it threw. */
  datatype Notice = Notice(listener: nat, threw: bool)

  /**
   * `beforeExecute`: calls every listener in registration order; a listener that
   * throws is skipped over and the rest are still called.
   */
  method BeforeExecute(p: Pool, task: Task) returns (log: seq<Notice>)
    ensures |log| == |p.listeners|
    ensures forall i :: 0 <= i < |p.listeners| ==> log[i] == Notice(i, p.listeners[i].beforeThrows)
  {
    log := [];
    var i := 0;
    while i < |p.listeners|
      invariant 0 <= i <= |p.listeners|
      invariant |log| == i
      invariant forall j :: 0 <= j < i ==> log[j] == Notice(j, p.listeners[j].beforeThrows)
    {
      log := log + [Notice(i, p.listeners[i].beforeThrows)];
      i := i + 1;
    }
  }

  /**
   * `afterExecute`: calls every listener in registration order whatever the
   * earlier ones did. The ledger entry of the task is gone afterwards exactly
   * when some work-completion listener completed its callback.
   */
  method AfterExecute(p: Pool, task: Task, error: Option<Throwable>, ledger: Ledger)
    returns (log: seq<Notice>, r: Ledger)
    ensures |log| == |p.listeners|
    ensures forall i :: 0 <= i < |p.listeners| ==> log[i] == Notice(i, p.listeners[i].afterThrows)
    ensures r == if CompletionRuns(p.listeners) then Remove(ledger, task.id) else ledger
  {
    log := [];
    r := ledger;
    var i := 0;
    while i < |p.listeners|
      invariant 0 <= i <= |p.listeners|
      invariant |log| == i
      invariant forall j :: 0 <= j < i ==> log[j] == Notice(j, p.listeners[j].afterThrows)
      invariant r == if CompletionRuns(p.listeners[..i]) then Remove(ledger, task.id) else ledger
    {
      assert p.listeners[..i + 1] == p.listeners[..i] + [p.listeners[i]];
      r := AfterEffect(p.listeners[i], r, task, error);
      log := log + [Notice(i, p.listeners[i].afterThrows)];
      i := i + 1;
    }
    assert p.listeners[..|p.listeners|] == p.listeners;
  }
}

=== FILE: rebalance.dfy ===
/**
 * One cycle of the rebalance timer task (`WorkRebalanceTimerTask.execute`):
 * under the cluster-wide rebalance lock, compare the local member's queue size
 * with the cluster average and, when the local member is far enough below it,
 * ask the members above the average for a proportional share of their queued
 * tasks and enqueue what comes back locally. Collecting sizes and stealing are
 * remote calls; their answers are inputs here.
 */
module Rebalance {
  import opened Options
  import opened Tasks
  import opened Rounding
  import opened GroupedQueue
  import opened QueueExecutor
  import opened LocalExecutor
  import opened DistributedExecutor

  /** A member's answer to the queue-size request. */
  datatype Response = Response(member: Member, size: nat)

  /** One entry of the steal plan: how many tasks to ask `member` for. */
  datatype Steal = Steal(member: Member, count: nat)

  function Sum(rs: seq<Response>): nat {
    if rs == [] then 0 else rs[0].size + Sum(rs[1..])
  }

  /** The integer average of the reported sizes, `totalSize / queueSizes.size()`. */
  function Average(rs: seq<Response>): nat
    requires |rs| > 0
  {
    Sum(rs) / |rs|
  }

  /**
   * The local member's queue size: the size of the LAST response from the local
   * member (the aggregation loop overwrites it), or none when it did not answer.
   */
  function LocalSize(rs: seq<Response>, local: Member): (r: Option<nat>)
    ensures r.None? <==> forall i :: 0 <= i < |rs| ==> rs[i].member != local
    ensures r.Some? ==>
              exists i :: 0 <= i < |rs| && rs[i] == Response(local, r.value) && LaterNotFrom(rs, i, local)
  {
    var k := LastFrom(rs, local);
    if k < 0 then None
    else
      assert rs[k] == Response(local, rs[k].size);
      Some(rs[k].size)
  }

  /** No response after position `i` comes from `local`. */
  predicate LaterNotFrom(rs: seq<Response>, i: int, local: Member) {
    forall j :: 0 <= j < |rs| && i < j ==> rs[j].member != local
  }

  /** The position of the last response from `local`, or -1 when there is none. */
  function LastFrom(rs: seq<Response>, local: Member): (k: int)
    ensures -1 <= k < |rs|
    ensures k >= 0 ==> rs[k].member == local
    ensures LaterNotFrom(rs, k, local)
  {
    if rs == [] then -1
    else if rs[|rs| - 1].member == local then |rs| - 1
    else
      var front := rs[..|rs| - 1];
      var k := LastFrom(front, local);
      assert forall j :: k < j < |rs| - 1 ==> front[j] == rs[j];
      k
  }

  /** The responses of members whose size is strictly above `optimal`, in response order. */
  function Exceeding(rs: seq<Response>, optimal: nat): (ex: seq<Response>)
    ensures forall r {:trigger r in ex} :: r in ex <==> r in rs && r.size > optimal
    ensures |ex| <= |rs|
  {
    if rs == [] then []
    else (if rs[0].size > optimal then [rs[0]] else []) + Exceeding(rs[1..], optimal)
  }

  /** `Exceeding` keeps every qualifying response as often as it occurs, and no other. */
  lemma {:induction false} ExceedingCounts(rs: seq<Response>, optimal: nat)
    ensures forall r :: multiset(Exceeding(rs, optimal))[r] == if r.size > optimal then multiset(rs)[r] else 0
  {
    if rs != [] {
      ExceedingCounts(rs[1..], optimal);
      var head := if rs[0].size > optimal then [rs[0]] else [];
      assert rs == [rs[0]] + rs[1..];
      assert multiset(rs) == multiset{rs[0]} + multiset(rs[1..]);
      assert Exceeding(rs, optimal) == head + Exceeding(rs[1..], optimal);
      assert multiset(Exceeding(rs, optimal)) == multiset(head) + multiset(Exceeding(rs[1..], optimal));
    }
  }

  /**
   * `Exceeding` keeps the responses in the order they came: it is the
   * subsequence of `rs` at exactly the positions whose size is above `optimal`.
   */
  lemma {:induction false} ExceedingKeepsOrder(rs: seq<Response>, optimal: nat) returns (idx: seq<nat>)
    ensures SelectedAt(Exceeding(rs, optimal), rs, idx)
    ensures Increasing(idx)
    ensures AtPositions(rs, optimal, idx)
  {
    if rs == [] {
      return [];
    }
    var tail := ExceedingKeepsOrder(rs[1..], optimal);
    idx := ExceedingConsStep(rs, optimal, tail);
  }

  /** Position `i` of `rs` is listed in `idx` exactly when its size is above `optimal`. */
  predicate AtPositions(rs: seq<Response>, optimal: nat, idx: seq<nat>) {
    forall i :: 0 <= i < |rs| ==> (rs[i].size > optimal <==> i in idx)
  }

  /** The positions for `rs` from those of its tail. */
  lemma ExceedingConsStep(rs: seq<Response>, optimal: nat, tail: seq<nat>) returns (idx: seq<nat>)
    requires rs != []
    requires SelectedAt(Exceeding(rs[1..], optimal), rs[1..], tail) && Increasing(tail)
    requires AtPositions(rs[1..], optimal, tail)
    ensures SelectedAt(Exceeding(rs, optimal), rs, idx)
    ensures Increasing(idx)
    ensures AtPositions(rs, optimal, idx)
  {
    var rest := rs[1..];
    assert rs == [rs[0]] + rest;
    if rs[0].size > optimal {
      idx := [0] + Shift(tail);
      assert Exceeding(rs, optimal) == [rs[0]] + Exceeding(rest, optimal);
      SelectedAtKeep(rs[0], rest, Exceeding(rest, optimal), tail);
    } else {
      idx := Shift(tail);
      assert Exceeding(rs, optimal) == Exceeding(rest, optimal);
      SelectedAtSkip(rs[0], rest, Exceeding(rest, optimal), tail);
    }
    PositionsShift(rs, optimal, tail, idx);
  }

  /** The qualifying positions of `rs` are those of its tail moved one place on, plus 0 when the head qualifies. */
  lemma PositionsShift(rs: seq<Response>, optimal: nat, tail: seq<nat>, idx: seq<nat>)
    requires rs != []
    requires AtPositions(rs[1..], optimal, tail)
    requires idx == if rs[0].size > optimal then [0] + Shift(tail) else Shift(tail)
    ensures AtPositions(rs, optimal, idx)
  {
    var shifted := Shift(tail);
    forall i | 0 <= i < |rs|
      ensures rs[i].size > optimal <==> i in idx
    {
      if i > 0 {
        assert rs[i] == rs[1..][i - 1];
        assert (i in idx) <==> (i - 1 in tail);
      } else {
        assert 0 !in shifted;
      }
    }
  }

  /** Keeping the first response: its position is 0 and the rest move one place on. */
  lemma SelectedAtKeep(r0: Response, rest: seq<Response>, ex: seq<Response>, idx: seq<nat>)
    requires SelectedAt(ex, rest, idx) && Increasing(idx)
    ensures SelectedAt([r0] + ex, [r0] + rest, [0] + Shift(idx))
    ensures Increasing([0] + Shift(idx))
  {
    var rs, ex', idx' := [r0] + rest, [r0] + ex, [0] + Shift(idx);
    forall k | 0 < k < |idx'|
      ensures idx'[k] < |rs| && ex'[k] == rs[idx'[k]]
    {
      assert idx'[k] == idx[k - 1] + 1 && ex'[k] == ex[k - 1];
      assert rs[idx[k - 1] + 1] == rest[idx[k - 1]];
    }
  }

  /** Skipping the first response: the others move one place on. */
  lemma SelectedAtSkip(r0: Response, rest: seq<Response>, ex: seq<Response>, idx: seq<nat>)
    requires SelectedAt(ex, rest, idx) && Increasing(idx)
    ensures SelectedAt(ex, [r0] + rest, Shift(idx))
    ensures Increasing(Shift(idx))
  {
    var rs, idx' := [r0] + rest, Shift(idx);
    forall k | 0 <= k < |idx'|
      ensures idx'[k] < |rs| && ex[k] == rs[idx'[k]]
    {
      assert rs[idx[k] + 1] == rest[idx[k]];
    }
  }

  /** `ex[k]` is the response at position `idx[k]` of `rs`. */
  predicate SelectedAt(ex: seq<Response>, rs: seq<Response>, idx: seq<nat>) {
    && |idx| == |ex|
    && forall k :: 0 <= k < |idx| ==> idx[k] < |rs| && ex[k] == rs[idx[k]]
  }

  predicate Increasing(idx: seq<nat>) {
    forall k, l :: 0 <= k < l < |idx| ==> idx[k] < idx[l]
  }

  /** Every position moved one place on. */
  function Shift(idx: seq<nat>): (r: seq<nat>)
    ensures |r| == |idx|
    ensures forall k :: 0 <= k < |idx| ==> r[k] == idx[k] + 1
    ensures forall i :: i in r <==> i >= 1 && i - 1 in idx
  {
    if idx == [] then []
    else [idx[0] + 1] + Shift(idx[1..])
  }

  /** The outcome of the planning part of a cycle. */
  datatype Decision =
    | NoData                                    // no member reported a size
    | LocalUnknown                              // the local member is not among the responses
    | Balanced(optimal: nat, local: nat)        // no rebalance needed
    | StealPlan(optimal: nat, local: nat, needToTake: nat, totalExceeding: nat, steals: seq<Steal>)

  /**
   * The decision of one cycle. `optimal` is the integer average of the reported
   * sizes; the cycle goes on only when the local size is below `optimal` and
   * below 30% of it (`optimal * 0.30 <= local` aborts, written `3 * optimal <= 10 * local`).
   * The plan then asks every member above `optimal` for
   * `round(needToTake * size / totalExceeding)` tasks, where `totalExceeding`
   * adds up the FULL sizes of those members.
   */
  function Plan(rs: seq<Response>, local: Member): (d: Decision)
    ensures d.NoData? <==> |rs| == 0
    ensures d.LocalUnknown? <==> |rs| > 0 && LocalSize(rs, local).None?
    ensures d.Balanced? || d.StealPlan? ==>
              |rs| > 0 && d.optimal == Average(rs) && LocalSize(rs, local) == Some(d.local)
    ensures d.Balanced? ==> d.local >= d.optimal || 3 * d.optimal <= 10 * d.local
    ensures d.StealPlan? ==>
              && d.local < d.optimal && 10 * d.local < 3 * d.optimal
              && d.needToTake == d.optimal - d.local > 0
              && d.totalExceeding == Sum(Exceeding(rs, d.optimal)) > 0
              && ProportionalPlan(d.steals, Exceeding(rs, d.optimal), d.needToTake)
  {
    if |rs| == 0 then NoData
    else
      var optimal := Average(rs);
      match LocalSize(rs, local)
      case None => LocalUnknown
      case Some(localSize) =>
        if localSize >= optimal || 3 * optimal <= 10 * localSize then Balanced(optimal, localSize)
        else
          ExceedingNonEmpty(rs, local, optimal);
          StealFrom(rs, optimal, localSize)
  }

  /** The steal branch: take `optimal - local` tasks, spread over the members above `optimal`. */
  function StealFrom(rs: seq<Response>, optimal: nat, localSize: nat): (d: Decision)
    requires localSize < optimal && Sum(Exceeding(rs, optimal)) > 0
    ensures d.StealPlan? && d.optimal == optimal && d.local == localSize
    ensures d.needToTake == optimal - localSize
    ensures d.totalExceeding == Sum(Exceeding(rs, optimal))
    ensures ProportionalPlan(d.steals, Exceeding(rs, optimal), d.needToTake)
  {
    var ex := Exceeding(rs, optimal);
    StealPlan(optimal, localSize, optimal - localSize, Sum(ex), StealsFor(ex, optimal - localSize))
  }

  /**
   * `steals` asks each donor of `ex`, in order, for its share of `needToTake`
   * in proportion to its size among all donors; no share exceeds `needToTake`.
   */
  predicate ProportionalPlan(steals: seq<Steal>, ex: seq<Response>, needToTake: nat) {
    && Sum(ex) > 0
    && |steals| == |ex|
    && forall i :: 0 <= i < |ex| ==>
         && steals[i].member == ex[i].member
         && steals[i].count == Share(needToTake, ex[i].size, Sum(ex))
         && steals[i].count <= needToTake
  }

  /**
   * The steal plan for the donors `ex`: each is asked for its share of
   * `needToTake` in proportion to its size, which is never more than `needToTake`.
   */
  function StealsFor(ex: seq<Response>, needToTake: nat): (steals: seq<Steal>)
    requires Sum(ex) > 0
    ensures ProportionalPlan(steals, ex, needToTake)
  {
    var total := Sum(ex);
    SharesBounded(ex, needToTake);
    seq(|ex|, i requires 0 <= i < |ex| => Steal(ex[i].member, Share(needToTake, ex[i].size, total)))
  }

  lemma {:induction false} SharesBounded(ex: seq<Response>, needToTake: nat)
    requires Sum(ex) > 0
    ensures forall i :: 0 <= i < |ex| ==> Share(needToTake, ex[i].size, Sum(ex)) <= needToTake
  {
    forall i | 0 <= i < |ex|
      ensures Share(needToTake, ex[i].size, Sum(ex)) <= needToTake
    {
      ShareBounded(ex, i, needToTake);
    }
  }

  lemma ShareBounded(ex: seq<Response>, i: nat, needToTake: nat)
    requires Sum(ex) > 0 && i < |ex|
    ensures Share(needToTake, ex[i].size, Sum(ex)) <= needToTake
  {
    SizeBelowSum(ex, i);
    ShareWithin(needToTake, ex[i].size, Sum(ex));
  }

  /** A single response never reports more than the total. */
  lemma {:induction false} SizeBelowSum(rs: seq<Response>, i: nat)
    requires i < |rs|
    ensures rs[i].size <= Sum(rs)
  {
    if i > 0 {
      SizeBelowSum(rs[1..], i - 1);
    }
  }

  /** Every response is either counted in the exceeding sum or contributes at most `optimal`. */
  lemma {:induction false} SumSplitsAtOptimal(rs: seq<Response>, optimal: nat)
    ensures Sum(rs) <= Sum(Exceeding(rs, optimal)) + Capacity(optimal, |rs|)
  {
    if rs != [] {
      SumSplitsAtOptimal(rs[1..], optimal);
      ExceedingStep(rs, optimal);
    }
  }

  /** ... and strictly less when some response lies below `optimal`. */
  lemma {:induction false} SumStrictlyBelow(rs: seq<Response>, optimal: nat, i: nat)
    requires i < |rs| && rs[i].size < optimal
    ensures Sum(rs) < Sum(Exceeding(rs, optimal)) + Capacity(optimal, |rs|)
  {
    ExceedingStep(rs, optimal);
    var restSum, restExceeding, restBound := Sum(rs[1..]), Sum(Exceeding(rs[1..], optimal)), Capacity(optimal, |rs[1..]|);
    if i == 0 {
      SumSplitsAtOptimal(rs[1..], optimal);
      assert restSum <= restExceeding + restBound;
    } else {
      assert rs[1..][i - 1] == rs[i];
      SumStrictlyBelow(rs[1..], optimal, i - 1);
      assert restSum < restExceeding + restBound;
    }
  }

  /** One unfolding of both sums and of the capacity. */
  lemma ExceedingStep(rs: seq<Response>, optimal: nat)
    requires rs != []
    ensures Sum(rs) == rs[0].size + Sum(rs[1..])
    ensures Sum(Exceeding(rs, optimal)) ==
              (if rs[0].size > optimal then rs[0].size else 0) + Sum(Exceeding(rs[1..], optimal))
    ensures Capacity(optimal, |rs|) == optimal + Capacity(optimal, |rs[1..]|)
  {
    var head := if rs[0].size > optimal then [rs[0]] else [];
    var tail := Exceeding(rs[1..], optimal);
    assert Exceeding(rs, optimal) == head + tail;
    SumAppend(head, tail);
    if rs[0].size > optimal {
      assert head[1..] == [];
      assert Sum(head) == rs[0].size;
    } else {
      assert Sum(head) == 0;
    }
  }

  /** `optimal` added up once for each of `n` responses. */
  function Capacity(optimal: nat, n: nat): nat {
    if n == 0 then 0 else optimal + Capacity(optimal, n - 1)
  }

  /** The repeated addition is the product `optimal * n`. */
  lemma {:induction false} CapacityIsProduct(optimal: nat, n: nat)
    ensures Capacity(optimal, n) == optimal * n
  {
    if n > 0 {
      CapacityIsProduct(optimal, n - 1);
      MulSucc(optimal, n - 1);
    }
  }

  lemma MulSucc(a: nat, n: nat)
    ensures a * (n + 1) == a + a * n
  {
  }

  lemma {:induction false} SumAppend(a: seq<Response>, b: seq<Response>)
    ensures Sum(a + b) == Sum(a) + Sum(b)
  {
    if a == [] {
      assert a + b == b;
    } else {
      assert (a + b)[1..] == a[1..] + b;
      SumAppend(a[1..], b);
    }
  }

  /**
   * When the local member is below the average, some member is above it, so
   * the exceeding sum is positive and the proportional shares are defined.
   */
  lemma ExceedingNonEmpty(rs: seq<Response>, local: Member, optimal: nat)
    requires |rs| > 0 && optimal == Average(rs)
    requires LocalSize(rs, local).Some? && LocalSize(rs, local).value < optimal
    ensures Sum(Exceeding(rs, optimal)) > 0
  {
    var i :| 0 <= i < |rs| && rs[i] == Response(local, LocalSize(rs, local).value);
    SumStrictlyBelow(rs, optimal, i);
    CapacityIsProduct(optimal, |rs|);
    AverageTimesCountBelowSum(Sum(rs), |rs|);
  }

  /** Integer averaging never overshoots: `(total / n) * n <= total`. */
  lemma AverageTimesCountBelowSum(total: nat, n: nat)
    requires n > 0
    ensures (total / n) * n <= total
  {
  }

  /** Members report distinct identities. */
  predicate DistinctMembers(rs: seq<Response>) {
    forall i, j :: 0 <= i < j < |rs| ==> rs[i].member != rs[j].member
  }

  /** With one response per member, a steal plan never asks the local member itself for work. */
  lemma PlanSkipsLocalMember(rs: seq<Response>, local: Member)
    requires DistinctMembers(rs)
    ensures var d := Plan(rs, local);
            d.StealPlan? ==> forall s :: s in d.steals ==> s.member != local
  {
    var d := Plan(rs, local);
    if d.StealPlan? {
      var ex := Exceeding(rs, d.optimal);
      forall s | s in d.steals
        ensures s.member != local
      {
        var i :| 0 <= i < |d.steals| && d.steals[i] == s;
        var donor := ex[i];
        assert s.member == donor.member && donor in ex;
        var j :| 0 <= j < |rs| && rs[j] == donor;
        var k :| 0 <= k < |rs| && rs[k] == Response(local, d.local);
        assert rs[j].size > d.optimal > rs[k].size;
      }
    }
  }

  /** Sizes 100, 100 and 10 on the local member: average 70, 60 to take, 30 from each donor. */
  lemma PlanExample()
    ensures Plan([Response("m1", 100), Response("m2", 100), Response("m3", 10)], "m3")
            == StealPlan(70, 10, 60, 200, [Steal("m1", 30), Steal("m2", 30)])
  {
    var rs := [Response("m1", 100), Response("m2", 100), Response("m3", 10)];
    assert Sum(rs) == 210;
    assert LocalSize(rs, "m3") == Some(10);
    var ex := [Response("m1", 100), Response("m2", 100)];
    assert Exceeding(rs, 70) == ex;
    assert Sum(ex) == 200;
    assert Share(60, 100, 200) == 30;
    assert StealsFor(ex, 60) == [Steal("m1", 30), Steal("m2", 30)];
  }

  /** The 30% guard lets a member well below the average abort: sizes 100, 100 and 40 give no steal. */
  lemma ThresholdAbortsBelowAverage()
    ensures Plan([Response("m1", 100), Response("m2", 100), Response("m3", 40)], "m3") == Balanced(80, 40)
  {
    var rs := [Response("m1", 100), Response("m2", 100), Response("m3", 40)];
    assert Sum(rs) == 240;
    assert LocalSize(rs, "m3") == Some(40);
  }

  datatype LockEvent = Acquired | Released

  datatype CycleOutcome = CycleOutcome(
    returned: Option<bool>,          // what `execute()` returns; none when the steal call's failure propagates
    lockEvents: seq<LockEvent>,      // the rebalance lock's history during the cycle
    decision: Decision,
    request: Option<seq<Steal>>,     // the steal plan sent to the donors, if any
    added: nat,                      // how many stolen tasks were passed to the local accept path
    pool: Pool)

  /**
   * `execute()`: takes the lock, plans, and on a steal plan hands it to the
   * donors and passes every returned task to the local `execute`. `donors`
   * stands for the remote steal call: its answer, or none when the call throws.
   * Whatever happens after the lock is taken, the `finally` block releases it;
   * a cycle that completes returns false.
   */
  method RebalanceCycle(rs: seq<Response>, local: Member, donors: seq<Steal> -> Option<seq<Task>>, p: Pool)
    returns (out: CycleOutcome)
    ensures out.lockEvents == [Acquired, Released]
    ensures out.decision == Plan(rs, local)
    ensures out.returned.None? <==> out.decision.StealPlan? && donors(out.decision.steals).None?
    ensures out.returned != Some(true)
    ensures !out.decision.StealPlan? ==> out.request.None? && out.added == 0 && out.pool == p
    ensures out.decision.StealPlan? ==> out.request == Some(out.decision.steals)
    ensures out.decision.StealPlan? && donors(out.decision.steals).None? ==> out.added == 0 && out.pool == p
    ensures out.decision.StealPlan? && donors(out.decision.steals).Some? ==>
              var stolen := donors(out.decision.steals).value;
              && out.added == |stolen|
              && out.pool == p.(queue := out.pool.queue)
              && (IsShutdown(p) ==> out.pool.queue == p.queue)
              && (!IsShutdown(p) ==> Contents(out.pool.queue) == Contents(p.queue) + multiset(stolen))
              && (!IsShutdown(p) ==> Appended(p.queue, stolen, out.pool.queue))
  {
    var lockEvents := [Acquired];
    var decision := Plan(rs, local);
    var returned, request, added, pool := Some(false), None, 0, p;
    if decision.StealPlan? {
      request := Some(decision.steals);
      match donors(decision.steals)
      case None =>
        returned := None;
      case Some(stolen) =>
        added, pool := EnqueueStolen(p, stolen);
    }
    lockEvents := lockEvents + [Released];
    out := CycleOutcome(returned, lockEvents, decision, request, added, pool);
  }

  /** Passes every stolen task to the local `execute`, counting them. */
  method EnqueueStolen(p: Pool, stolen: seq<Task>) returns (added: nat, pool: Pool)
    ensures added == |stolen|
    ensures pool == p.(queue := pool.queue)
    ensures IsShutdown(p) ==> pool.queue == p.queue
    ensures !IsShutdown(p) ==> Contents(pool.queue) == Contents(p.queue) + multiset(stolen)
    ensures !IsShutdown(p) ==> Appended(p.queue, stolen, pool.queue)
  {
    pool := p;
    added := 0;
    for i := 0 to |stolen|
      invariant added == i
      invariant pool == p.(queue := pool.queue)
      invariant IsShutdown(p) ==> pool.queue == p.queue
      invariant !IsShutdown(p) ==> Contents(pool.queue) == Contents(p.queue) + multiset(stolen[..i])
      invariant !IsShutdown(p) ==> Appended(p.queue, stolen[..i], pool.queue)
    {
      assert stolen[..i + 1] == stolen[..i] + [stolen[i]];
      if !IsShutdown(p) {
        AppendedStep(p.queue, stolen[..i], pool.queue, stolen[i]);
      }
      var (_, pool') := LocalExecutor.Execute(pool, stolen[i]);
      pool := pool';
      added := added + 1;
    }
    assert stolen[..|stolen|] == stolen;
  }
}

=== FILE: rounding.dfy ===
/**
 * `Math.round` applied to a non-negative ratio, computed exactly on integers
 * instead of through doubles.
 */
module Rounding {

  /** `Math.round(num / den)` for `num >= 0`, `den > 0`: the nearest integer, halves rounded up. */
  function RoundHalfUp(num: nat, den: nat): nat
    requires den > 0
  {
    (2 * num + den) / (2 * den)
  }

  /** The rounded value lies within one half of `num / den`: `r - 1/2 <= num / den < r + 1/2`. */
  lemma RoundHalfUpBracket(num: nat, den: nat)
    requires den > 0
    ensures var r := RoundHalfUp(num, den);
            2 * den * r <= 2 * num + den < 2 * den * (r + 1)
  {
  }

  /** Cancelling a positive factor on both sides of a strict inequality. */
  lemma CancelPositive(d: int, x: int, y: int)
    requires d > 0
    requires d * x < d * y
    ensures x < y
  {
    if x >= y {
      MulMonotone(d, y, x);
    }
  }

  lemma MulMonotone(d: int, x: int, y: int)
    requires d >= 0 && x <= y
    ensures d * x <= d * y
  {
  }

  /** The rounded ratio is the unique integer within one half of `num / den` (halves going up). */
  lemma RoundHalfUpIsNearest(num: nat, den: nat, k: int)
    requires den > 0
    requires 2 * den * k <= 2 * num + den < 2 * den * (k + 1)
    ensures k == RoundHalfUp(num, den)
  {
    var r := RoundHalfUp(num, den);
    RoundHalfUpBracket(num, den);
    CancelPositive(2 * den, k, r + 1);
    CancelPositive(2 * den, r, k + 1);
  }

  /** Rounding a ratio no larger than `bound` never exceeds `bound`. */
  lemma RoundHalfUpBounded(num: nat, den: nat, bound: nat)
    requires den > 0
    requires num <= bound * den
    ensures RoundHalfUp(num, den) <= bound
  {
    var r := RoundHalfUp(num, den);
    RoundHalfUpBracket(num, den);
    CancelPositive(2 * den, r, bound + 1);
  }

  /** `Math.round(n * part / whole)`: the part of `n` in proportion `part / whole`. */
  function Share(n: nat, part: nat, whole: nat): nat
    requires whole > 0
  {
    RoundHalfUp(n * part, whole)
  }

  /** A proportional share of `n` for a part no larger than the whole is at most `n`. */
  lemma ShareWithin(n: nat, part: nat, whole: nat)
    requires whole > 0
    ensures part <= whole ==> Share(n, part, whole) <= n
  {
    if part <= whole {
      MulMonotone(n, part, whole);
      RoundHalfUpBounded(n * part, whole, n);
    }
  }
}

=== FILE: tasks.dfy ===
/**
 * The task record (`HazeltaskTask`, also used here for the `HazelcastWork`
 * wrapper of the distributed executor): identity, group, topology name, creation time,
 * submission counter, the wrapped body, and the result and exception slots
 * filled in by `run`.
 */
module Tasks {
  import opened Options

  /** Ranges of Java's `int` and `long`. */
  const INT_MIN: int := -0x8000_0000
  const INT_MAX: int := 0x7fff_ffff
  const LONG_MIN: int := -0x8000_0000_0000_0000
  const LONG_MAX: int := 0x7fff_ffff_ffff_ffff

  type Int32 = x: int | INT_MIN <= x <= INT_MAX
  type Long = x: int | LONG_MIN <= x <= LONG_MAX

  /** Java's `x + 1` on an `int`: two's-complement wrap-around at the top of the range. */
  function Inc32(x: Int32): (r: Int32)
    ensures x < INT_MAX ==> r == x + 1
    ensures x == INT_MAX ==> r == INT_MIN
  {
    (x + 1 - INT_MIN) % 0x1_0000_0000 + INT_MIN
  }

  type TaskId = string
  type Group = string
  type Value = string

  /**
   * What a body can throw. `Exception` covers `java.lang.Exception` and all its
   * subclasses (runtime exceptions included); `Error` covers every other throwable.
   */
  datatype Throwable = Exception(message: string) | Error(message: string)

  /** A `Runnable`, described by what its `run()` does: return, or throw. */
  datatype Runnable = Runnable(raises: Option<Throwable>)

  /** What a `Callable`'s `call()` does: return a (possibly null) value, or throw. */
  datatype CallOutcome = Returns(value: Option<Value>) | Raises(thrown: Throwable)

  datatype Callable = Callable(outcome: CallOutcome)

  /** A task wraps exactly one of a runnable and a callable. */
  datatype Body = RunnableBody(runnable: Runnable) | CallableBody(callable: Callable)

  datatype Task = Task(
    topology: string,
    id: TaskId,
    group: Group,
    createdAt: Long,
    submissionCount: Int32,
    body: Body,
    result: Option<Value>,
    exception: Option<Throwable>)

  /** Two records describe the same unit of work: same topology, id, group and body. */
  predicate SameWork(a: Task, b: Task) {
    a.topology == b.topology && a.id == b.id && a.group == b.group && a.body == b.body
  }

  /** A record that no `run` has touched yet. */
  predicate Unrun(t: Task) {
    t.result.None? && t.exception.None?
  }

  /** The constructor taking a `Runnable`; `now` is the clock reading. */
  function NewRunnableTask(topology: string, id: TaskId, group: Group, r: Runnable, now: Long): (t: Task)
    ensures t.topology == topology && t.id == id && t.group == group
    ensures t.submissionCount == 1 && t.createdAt == now
    ensures t.body.RunnableBody? && t.body.runnable == r
    ensures Unrun(t)
  {
    Task(topology, id, group, now, 1, RunnableBody(r), None, None)
  }

  /** The constructor taking a `Callable`; `now` is the clock reading. */
  function NewCallableTask(topology: string, id: TaskId, group: Group, c: Callable, now: Long): (t: Task)
    ensures t.topology == topology && t.id == id && t.group == group
    ensures t.submissionCount == 1 && t.createdAt == now
    ensures t.body.CallableBody? && t.body.callable == c
    ensures Unrun(t)
  {
    Task(topology, id, group, now, 1, CallableBody(c), None, None)
  }

  /** `setSubmissionCount(n)`: afterwards `getSubmissionCount()` is `n`; nothing else moves. */
  function SetSubmissionCount(t: Task, n: Int32): (r: Task)
    ensures r.submissionCount == n
    ensures SameWork(r, t) && r.createdAt == t.createdAt
    ensures r.result == t.result && r.exception == t.exception
  {
    t.(submissionCount := n)
  }

  /** `updateCreatedTime()`: re-stamps the record with the clock reading `now`; nothing else moves. */
  function UpdateCreatedTime(t: Task, now: Long): (r: Task)
    ensures r.createdAt == now
    ensures SameWork(r, t) && r.submissionCount == t.submissionCount
    ensures r.result == t.result && r.exception == t.exception
  {
    t.(createdAt := now)
  }

  /** What executing the body throws, if anything. */
  function Raised(b: Body): Option<Throwable> {
    match b
    case RunnableBody(r) => r.raises
    case CallableBody(c) => if c.outcome.Raises? then Some(c.outcome.thrown) else None
  }

  /** `run` either returns normally or lets a throwable escape. */
  datatype RunResult = Completed(task: Task) | Propagated(task: Task, thrown: Throwable)

  /**
   * `run()`: calls the callable if there is one and stores what it returns,
   * otherwise runs the runnable; an `Exception` from either is stored in the
   * exception slot and swallowed, anything else escapes.
   */
  function Run(t: Task): (r: RunResult)
    ensures SameWork(r.task, t)
    ensures r.task.createdAt == t.createdAt && r.task.submissionCount == t.submissionCount
    ensures r.Propagated? <==> Raised(t.body).Some? && Raised(t.body).value.Error?
    ensures r.Propagated? ==> r.task == t && r.thrown == Raised(t.body).value
    ensures r.task.exception ==
              if Raised(t.body).Some? && Raised(t.body).value.Exception? then Raised(t.body) else t.exception
    ensures r.task.result ==
              if t.body.CallableBody? && t.body.callable.outcome.Returns?
              then t.body.callable.outcome.value
              else t.result
  {
    match t.body
    case CallableBody(c) =>
      (match c.outcome
       case Returns(v) => Completed(t.(result := v))
       case Raises(e) => if e.Exception? then Completed(t.(exception := Some(e))) else Propagated(t, e))
    case RunnableBody(rn) =>
      (match rn.raises
       case None => Completed(t)
       case Some(e) => if e.Exception? then Completed(t.(exception := Some(e))) else Propagated(t, e))
  }

  /**
   * A fresh task runs the branch of the constructor that built it: one built
   * from a callable ends up holding what the callable returned, one built from
   * a runnable never gets a result. In both cases an exception from the body is
   * recorded and `run` returns normally.
   */
  lemma RunFollowsConstructor(topology: string, id: TaskId, group: Group, r: Runnable, c: Callable, now: Long)
    ensures var t := Run(NewCallableTask(topology, id, group, c, now));
            (c.outcome.Returns? ==> t == Completed(NewCallableTask(topology, id, group, c, now).(result := c.outcome.value)))
            && (c.outcome.Raises? && c.outcome.thrown.Exception? ==> t.Completed? && t.task.exception == Some(c.outcome.thrown) && t.task.result.None?)
    ensures var t := Run(NewRunnableTask(topology, id, group, r, now));
            t.task.result.None?
            && (r.raises.None? ==> t == Completed(NewRunnableTask(topology, id, group, r, now)))
            && (r.raises.Some? && r.raises.value.Exception? ==> t.Completed? && t.task.exception == r.raises)
  {
  }
}
